=== FILE: README.md ===
# rambot-frontend core, modelled in Dafny

This project models the non-visual logic of the rambot chat client, a
React single-page app that talks to a streaming agent backend:

- **the event-stream reader** inside `streamAgentRun`, which turns text
  chunks into content fragments (`RunContent`) and end-of-run signals
  (`RunCompleted`), as a `{buffer, currentEvent}` state machine folded over
  the chunks (`sse.dfy`, module `Sse`);
- **the transcript** of the `useMessages` hook: the message list, the id
  counter, and `addMessage`, `startAssistantMessage`, `appendToMessage`,
  `loadHistory` (`messages.dfy`, module `Messages`);
- **the tool switches** of `useTools` (`tools.dfy`, module `Tools`);
- **the validators** `isValidSessionId`, `isValidEmail`, `isNotEmpty`
  (`validation.dfy`, module `Validation`);
- **the colour scheme** of `useTheme` (`theme.dfy`, module `Theme`).

`text.dfy` (module `Text`) holds the JavaScript whitespace class, `trim`,
prefix tests and string concatenation; `wrappers.dfy` holds `Option`.

How the model reads the code:

- `JSON.parse` is a parameter `parse: string -> Option<Fields>`. `None`
  means the call throws. `Fields` holds the string-valued properties of
  the parsed value, so `typeof obj?.content === 'string'` is "`content` is a
  key". Whether the caller passed `onRunCompleted` is the flag
  `Reader.notifyCompleted`.
- `split(/\r?\n/)` is `SplitLines`. It splits at each line feed and removes
  one carriage return just before it. A lone carriage return does not end a
  line.
- `trim` and the regular-expression class `\s` use the same fixed set of
  characters: ECMAScript WhiteSpace plus LineTerminator. `Text.IsWhitespace`
  lists that set.
- Each clock reading (`new Date()`) is an integer parameter in milliseconds.
  `INITIAL_MESSAGE` gets its timestamp once, when the module loads. The model
  keeps that moment as `Chat.loadTime`.
- The theme preference is a string, not a three-valued type. The stored
  value is cast to a theme without any check, so a stored `"blue"` becomes
  the preference and also the theme in force.

Three behaviours of the code are easy to miss, and the model keeps them:

- a blank line does not reset the event kind. The reset at
  `src/services/api.ts:124-127` can never run, because line 89 has already
  skipped every empty trimmed line;
- `RunCompleted` is reported only when `onRunCompleted` is supplied. The
  end-of-stream flush handles only `RunContent` data, so it never reports a
  completion;
- a history item with any role other than `user` becomes an assistant
  message.

Chunk-boundary invariance (`Sse.ChunkBoundaryInvariance`) is proved against
a reference machine `Sse.Feed`, which reads one character at a time.
`Sse.StepIsFeed` shows that the chunk-at-once step equals `Feed` whenever the
buffer holds no line feed. `Sse.Step` guarantees that the buffer never holds
one after a step. Feeding text is a homomorphism (`Sse.FeedAppend`), so any
split of the same text gives the same reports.

## Model

| member | source | states |
|---|---|---|
| Sse.SplitLines | src/services/api.ts:84-85 | without a line feed there are no completed lines and the whole text is carried; with one, the carried tail is exactly the text after the last line feed; the completed lines contain no line feed |
| Sse.Classify | src/services/api.ts:88-98 | a line is blank exactly when it is all whitespace; it is an `event:` line exactly when the trimmed line starts with `event:`, and a `data:` line exactly when it starts with `data:` and not `event:`; the kind or payload is the trimmed rest after the prefix |
| Sse.ContentOf | src/services/api.ts:101-108 | under `RunContent`, a payload yields at most one fragment; it yields `Content(c)` exactly when the payload parses and its string `content` is c, with c non-empty |
| Sse.CompletedOf | src/services/api.ts:109-119 | under `RunCompleted`, a payload yields exactly one completion carrying `session_id` when the payload parses and a callback exists, and nothing otherwise; the session id is absent when the field is missing |
| Sse.Interpret | src/services/api.ts:92-122 | only an `event:` line changes the kind; a data line yields at most one report, only when it parses and only under `RunContent` or `RunCompleted`; fragments are never empty |
| Sse.ProcessLine | src/services/api.ts:87-127 | only an `event:` line changes the event kind; a line yields at most one report; a report comes only from a parseable data line under `RunContent` or `RunCompleted`; fragments are never empty |
| Sse.ProcessLines | src/services/api.ts:87-128 | there are no more reports than lines; every fragment is non-empty |
| Sse.ProcessLinesAppend | src/services/api.ts:87-128 | lines are interpreted in order: interpreting `a + b` is interpreting `a`, then `b` under the event kind `a` left, with the reports concatenated |
| Sse.Step | src/services/api.ts:79-129 | after each chunk the carried buffer holds no line feed; every fragment is non-empty |
| Sse.Flush | src/services/api.ts:131-147 | the end-of-stream flush yields at most one report, always a content fragment; under `RunContent` a trailing `data:` line yields exactly what a completed line would; nothing is reported otherwise |
| Sse.FlushIsLastLine | src/services/api.ts:131-147 | the flush treats the tail as one more line, except that under `RunCompleted` it reports nothing |
| Sse.Run | src/services/api.ts:79-129 | folding the steps over the chunks only ever reports non-empty fragments |
| Sse.Stream | src/services/api.ts:76-147 | one full call reports only non-empty fragments |
| Sse.StreamIsFeed | src/services/api.ts:76-147 | one call reports exactly what the character-at-a-time reader reports for the concatenated text, in order, followed by the flush of the unterminated tail |
| Sse.StreamReportsLines | src/services/api.ts:76-147 | when the concatenated chunks are lines, each followed by a line feed, and then an unterminated tail, one call reports what each line reports as written, in order, followed by the flush of the tail under the event kind the lines left |
| Sse.StepLines | src/services/api.ts:79-129 | from an empty buffer, one step over whole lines and a tail interprets every line as written and carries exactly the tail |
| Sse.StripCR | src/services/api.ts:84 | `/\r?\n/` removes exactly one carriage return, the one just before the line feed: the line is the result, or the result followed by `\r`, and the latter whenever the line ends in `\r` |
| Sse.ClassifyStripCR | src/services/api.ts:84-88 | removing the carriage return before the line feed never changes how the line is classified, because `trim` would remove it anyway |
| Sse.SplitLinesAfterLine | src/services/api.ts:84 | splitting `b + "\n" + t` puts the line `b`, without the one carriage return just before the line feed, before the lines of `t` |
| Sse.StepIsFeed | src/services/api.ts:82-85 | when the buffer has no line feed, the chunk-at-once step equals the character-at-a-time reference reader |
| Sse.FeedAppend | src/services/api.ts:82-85 | reading `a + b` with the reference reader equals reading `a` and then `b` from the state `a` left |
| Sse.StepAppend | src/services/api.ts:79-85 | one step on `a + b` equals a step on `a` followed by a step on `b`, with the reports concatenated |
| Sse.StepEmpty | src/services/api.ts:82-85 | an empty chunk changes nothing and reports nothing |
| Sse.RunIsStep | src/services/api.ts:79-129 | folding over the chunks equals one step over their concatenation |
| Sse.ChunkBoundaryInvariance | src/services/api.ts:76-147 | two chunkings of the same text yield identical reports, including the flush |
| Sse.ContentDataLine | src/services/api.ts:101-108 | under `RunContent` a data line yields exactly its non-empty string `content`, and the kind is unchanged |
| Sse.CompletedDataLine | src/services/api.ts:109-119 | under `RunCompleted` a parseable data line yields one completion with the optional `session_id` when `onRunCompleted` was passed, and nothing when it was not; the kind is unchanged |
| Sse.MalformedPayloadIgnored | src/services/api.ts:102-119 | a payload that fails to parse yields nothing and leaves the event kind as it was |
| Sse.OtherKindsSilent | src/services/api.ts:97-122 | under any other kind, or before any `event:` line, a non-event line yields nothing and keeps the kind |
| Sse.BlankLineKeepsEvent | src/services/api.ts:88-127 | blank or whitespace-only lines yield nothing and do not reset the event kind |
| Sse.EventPersists | src/services/api.ts:92-95 | an event kind persists through any run of lines that contains no `event:` line |
| Text.Trim | src/services/api.ts:88 | the result is a slice of the line with only whitespace before and after it; it neither starts nor ends with whitespace, and it is empty exactly when the line is all whitespace |
| Text.TrimDropLast | src/services/api.ts:88 | trimming a string that ends in whitespace gives the same result as trimming it without that last character |
| Messages.Init | src/hooks/useMessages.ts:7-9 | the list starts as just the welcome message, with the counter at its id + 1, and the state is valid |
| Messages.AddMessage | src/hooks/useMessages.ts:15-24 | exactly one message is appended, with the old counter as its id; earlier messages are unchanged; the counter goes up by one; validity is preserved |
| Messages.StartAssistantMessage | src/hooks/useMessages.ts:32-42 | appends an empty assistant message and returns its id, which is the counter before the call and is used by no earlier message |
| Messages.AppendIn | src/hooks/useMessages.ts:44-48 | each message whose id matches gets `chunk` appended to its text; all other messages are unchanged |
| Messages.AppendToMessage | src/hooks/useMessages.ts:44-48 | length, order, ids, senders and timestamps are kept; only the matching text grows, by `chunk`; an unknown id changes nothing; validity is preserved |
| Messages.HistoryMessages | src/hooks/useMessages.ts:51-56 | one message per item, in order, with consecutive ids; text is the content; the sender is user exactly when the role is `user`; the timestamp is `created_at * 1000` |
| Messages.LoadHistory | src/hooks/useMessages.ts:50-59 | the list becomes the welcome message followed by the mapped history, numbered from the old counter on (length \|h\|+1); the counter grows by \|h\|; validity is preserved |
| Messages.LoadedValid | src/hooks/useMessages.ts:50-59 | the reloaded list of a valid state has distinct ids, all below the advanced counter |
| Messages.AppendEmptyIsIdentity | src/hooks/useMessages.ts:44-48 | appending the empty string is the identity |
| Messages.AppendInTwice | src/hooks/useMessages.ts:44-48 | on the list, appending `a` and then `b` equals appending `a + b` |
| Messages.AppendTwice | src/hooks/useMessages.ts:44-48 | appending `a` and then `b` equals appending `a + b` |
| Messages.AppendAllIsConcat | src/hooks/useMessages.ts:44-48 | appending fragments one at a time equals appending their concatenation |
| Messages.StreamedReply | src/hooks/useMessages.ts:32-48 | after `startAssistantMessage` and fragments f1..fn, the new last message has text f1+…+fn, earlier messages are unchanged, and the state stays valid |
| Messages.OperationsKeepValid | src/hooks/useMessages.ts:9-59 | under any sequence of operations, ids stay distinct and below the counter, and the counter never decreases, including across `loadHistory` |
| Tools.ToggleTool | src/hooks/useTools.ts:8-12 | length, order, ids, names and descriptions are kept; `enabled` flips exactly on the tools whose id matches |
| Tools.ToggleUnknownId | src/hooks/useTools.ts:10 | toggling an unknown id leaves the list unchanged |
| Tools.ToggleTwice | src/hooks/useTools.ts:10 | toggling the same id twice restores the list |
| Tools.EnabledTools | src/hooks/useTools.ts:14 | the filter holds exactly the enabled tools and is no longer than the list |
| Tools.EnabledToolsMultiplicity | src/hooks/useTools.ts:14 | the filter keeps every enabled tool as often as it occurs in the list and drops every disabled one |
| Tools.EnabledToolsCount | src/hooks/useTools.ts:14 | the count equals the number of `true` flags; it is at most the list length, 0 exactly when no tool is on, and the full length exactly when all are |
| Tools.CountFacts | src/hooks/useTools.ts:14 | the enabled count is zero, or the full length, exactly when no tool, or every tool, is enabled |
| Tools.ToggleChangesCountByOne | src/hooks/useTools.ts:10-14 | with unique ids, toggling a present id lowers the count by one if that tool was on and raises it by one if it was off |
| Tools.InitialToolIdsUnique | src/constants/index.ts:3-34 | the initial tools have distinct ids |
| Tools.InitialEnabledCount | src/constants/index.ts:3-34 | exactly two of the initial tools start enabled |
| Validation.AllSessionIdChars | src/utils/validation.ts:24 | true exactly when every character is in `[A-Za-z0-9_-]` |
| Validation.IsValidSessionId | src/utils/validation.ts:23-25 | holds exactly when the id is non-empty and every character is a letter, a digit, `_` or `-`; the empty string is rejected |
| Validation.IsValidEmail | src/utils/validation.ts:5-8 | true exactly when `^[^\s@]+@[^\s@]+\.[^\s@]+$` matches the whole string, read as some choice of `@` and `.` positions |
| Validation.EmailMatcherSound | src/utils/validation.ts:5-8 | whatever the first-`@` matcher accepts matches `^[^\s@]+@[^\s@]+\.[^\s@]+$` |
| Validation.EmailMatcherComplete | src/utils/validation.ts:5-8 | every split that witnesses a regex match is accepted by the matcher |
| Validation.EmailMatcherIsRegex | src/utils/validation.ts:5-8 | the matcher and the regular expression accept exactly the same strings |
| Validation.ValidEmailChars | src/utils/validation.ts:5-8 | in a valid address, every character other than the first `@` is in `[^\s@]` |
| Validation.DomainDot | src/utils/validation.ts:5-8 | a valid address has a `.` after the `@` that is neither the first character after the `@` nor the last character |
| Validation.ValidEmailShape | src/utils/validation.ts:5-8 | a valid address has exactly one `@`, no whitespace, and a non-empty local part; its domain has a `.` that is neither its first nor its last character |
| Validation.IsNotEmpty | src/utils/validation.ts:19-21 | false for null/undefined; otherwise true exactly when some character is not whitespace |
| Theme.InitialPreference | src/hooks/useTheme.ts:11-18 | `auto` when storage throws, holds nothing, or holds an empty string or `auto`; otherwise it is exactly the stored string |
| Theme.SystemTheme | src/hooks/useTheme.ts:20-25 | the system scheme is always `light` or `dark`; it is `dark` exactly when the media query is available and matches |
| Theme.InitialState | src/hooks/useTheme.ts:11-25 | the preference is the stored reading and the system scheme is the media-query result; the state is well formed; under `auto` the theme in force is `dark` exactly when the query matches |
| Theme.StoredValueInForce | src/hooks/useTheme.ts:11-18 | any stored non-empty value other than `auto`, known theme or not, becomes the theme in force |
| Theme.ActualTheme | src/hooks/useTheme.ts:27 | the theme in force is the system scheme under `auto` and the preference otherwise; it is `light` or `dark` when the preference is a known theme |
| Theme.SystemChanged | src/hooks/useTheme.ts:30-40 | a media-query change keeps the preference and sets the system scheme to the new query result whatever the preference; under `auto` the theme in force follows the query |
| Theme.ChangeTheme | src/hooks/useTheme.ts:49-56 | the preference becomes the new theme even when persisting fails; a warning is logged exactly when the write fails |
| Theme.ChangeThemeTakesEffect | src/hooks/useTheme.ts:49-56 | after `changeTheme(t)` the theme in force is `t`, or the system scheme when `t` is `auto`, whatever the write did |
| Theme.ToggleTheme | src/hooks/useTheme.ts:58-61 | the preference becomes `dark` if the theme in force was `light`, and `light` otherwise; it is never `auto`; the theme in force always changes; a warning is logged exactly when the write fails |
| Theme.ActualNeverAuto | src/hooks/useTheme.ts:20-27 | with a known preference and a concrete system scheme, the theme in force is never `auto` |
| Theme.ToggleTwiceRestores | src/hooks/useTheme.ts:58-61 | for a known preference, toggling twice restores the original theme in force; from an unknown stored preference such as `"blue"` two toggles give `light` and then `dark`, so the original is not restored |
| Theme.ToggleTwiceFromUnknown | src/hooks/useTheme.ts:58-61 | from an unknown stored preference, which is itself the theme in force, two toggles give `light` and then `dark`, so the original theme is not restored |

## Left out

- HTTP transport is not modelled: `fetch`, the status check, `ApiError`, `fetchChatHistory`, the stream reader and UTF-8 decoding. Chunks are already-decoded strings.
- `JSON.parse` is a parameter rather than a JSON parser. Only the string-valued properties of its result matter here.
- A callback that throws inside the `try` blocks is not modelled. Such an exception would be swallowed like a parse failure. The callbacks in `App.tsx` do not throw.
- The scroll effect and `simulateAssistantResponse` in `useMessages` are not modelled. They are DOM and timer plumbing.
- Messages.OperationsKeepValid: ids are unbounded integers. The source's counter is a JavaScript number, which stops growing at 2^53, so the promise that ids stay distinct holds only for fewer than 2^53 messages.
- Messages.HistoryMessages: the timestamp is `created_at * 1000` for every integer `created_at`. In JavaScript a `Date` beyond 8.64e15 milliseconds from the epoch is an Invalid Date, so the model holds only for `created_at` within that range.
- Messages.LoadHistory: `created_at` is an integer number of seconds. A fractional `created_at`, which `Date` would truncate to whole milliseconds, is not modelled.
- React batching is not modelled: the model applies updates in call order. `toggleTool` also reads the list from its render-time closure, so two toggles within one render would both start from the same stale list. That is not modelled either.
- Strings are sequences of Unicode code points. JavaScript strings are UTF-16 code units, so lone surrogates are not modelled. None of the modelled operations depends on code-unit counts.
- `isValidUrl` is not modelled, because it relies on the platform `URL` parser.
- The theme hook's side effects are not modelled: the write to `localStorage`, the media-query subscription bookkeeping, and the class list of the document element. The outcomes of storage and media queries are inputs instead.
- Storage, identity and formatting helpers are not modelled: `utils/storage`, `useUserInfo`, `utils/format`, `utils/dom`, configuration, and the UI components. They are I/O or presentation.

=== FILE: messages.dfy ===
/**
 * The chat transcript kept by the `useMessages` hook: the message list and
 * the id counter. React's `setMessages` updaters become functions from the
 * old state to the new one, and the clock reading of `new Date()` becomes a
 * parameter (milliseconds since the epoch).
 */
module Messages {

  import Text

  datatype Sender = User | Assistant

  datatype Message = Message(id: int, text: string, sender: Sender, timestamp: int)

  /** One entry of a fetched history; `role` is whatever string the server sent. */
  datatype HistoryItem = HistoryItem(role: string, content: string, createdAt: int)

  /**
   * `loadTime` is the moment the constants module was evaluated, which fixes
   * the welcome message's timestamp for the whole session.
   */
  datatype Chat = Chat(messages: seq<Message>, nextId: int, loadTime: int)

  const WelcomeId := 1
  const WelcomeText := "Hello! Welcome to our chat app. How can I help you today?"

  function Welcome(loadTime: int): Message {
    Message(WelcomeId, WelcomeText, Assistant, loadTime)
  }

  predicate UniqueIds(ms: seq<Message>) {
    forall i, j | 0 <= i < j < |ms| :: ms[i].id != ms[j].id
  }

  /** Every id is distinct and below the counter, and the counter is past the welcome id. */
  predicate Valid(c: Chat) {
    && WelcomeId < c.nextId
    && UniqueIds(c.messages)
    && forall i | 0 <= i < |c.messages| :: c.messages[i].id < c.nextId
  }

  /** The hook's initial state: just the welcome message, and the counter one past its id. */
  function Init(loadTime: int): (r: Chat)
    ensures Valid(r)
    ensures r.messages == [Welcome(loadTime)] && r.nextId == WelcomeId + 1
  {
    Chat([Welcome(loadTime)], WelcomeId + 1, loadTime)
  }

  /** `addMessage`: one new message at the end, numbered with the old counter. */
  function AddMessage(c: Chat, text: string, sender: Sender, now: int): (r: Chat)
    ensures |r.messages| == |c.messages| + 1
    ensures r.messages[..|c.messages|] == c.messages
    ensures r.messages[|c.messages|] == Message(c.nextId, text, sender, now)
    ensures r.nextId == c.nextId + 1 && r.loadTime == c.loadTime
    ensures Valid(c) ==> Valid(r)
  {
    Chat(c.messages + [Message(c.nextId, text, sender, now)], c.nextId + 1, c.loadTime)
  }

  /** `startAssistantMessage`: an empty assistant message whose fresh id is returned. */
  function StartAssistantMessage(c: Chat, now: int): (r: (Chat, int))
    ensures r.1 == c.nextId
    ensures r.0 == AddMessage(c, "", Assistant, now)
    ensures Valid(c) ==> Valid(r.0) && forall i | 0 <= i < |c.messages| :: c.messages[i].id != r.1
  {
    (AddMessage(c, "", Assistant, now), c.nextId)
  }

  /** `prev.map(m => m.id === id ? {...m, text: m.text + chunk} : m)`. */
  function AppendIn(ms: seq<Message>, id: int, chunk: string): (r: seq<Message>)
    ensures |r| == |ms|
    ensures forall i | 0 <= i < |ms| ::
      r[i] == (if ms[i].id == id then ms[i].(text := ms[i].text + chunk) else ms[i])
  {
    if |ms| == 0 then []
    else
      var m := if ms[0].id == id then ms[0].(text := ms[0].text + chunk) else ms[0];
      [m] + AppendIn(ms[1..], id, chunk)
  }

  /**
   * `appendToMessage`: length, order, ids, senders and timestamps are kept;
   * only the text of the message with that id grows, by exactly `chunk`.
   */
  function AppendToMessage(c: Chat, id: int, chunk: string): (r: Chat)
    ensures |r.messages| == |c.messages| && r.nextId == c.nextId && r.loadTime == c.loadTime
    ensures forall i | 0 <= i < |c.messages| ::
      && r.messages[i].id == c.messages[i].id
      && r.messages[i].sender == c.messages[i].sender
      && r.messages[i].timestamp == c.messages[i].timestamp
      && r.messages[i].text == c.messages[i].text + (if c.messages[i].id == id then chunk else "")
    ensures (forall i | 0 <= i < |c.messages| :: c.messages[i].id != id) ==> r == c
    ensures Valid(c) ==> Valid(r)
  {
    var ms := AppendIn(c.messages, id, chunk);
    assert (forall i | 0 <= i < |c.messages| :: c.messages[i].id != id) ==> ms == c.messages;
    Chat(ms, c.nextId, c.loadTime)
  }

  /** The messages built from a history, numbered from `firstId` on. */
  function HistoryMessages(h: seq<HistoryItem>, firstId: int): (r: seq<Message>)
    ensures |r| == |h|
    ensures forall i | 0 <= i < |h| ::
      && r[i].id == firstId + i
      && r[i].text == h[i].content
      && (r[i].sender == User <==> h[i].role == "user")
      && r[i].timestamp == h[i].createdAt * 1000
  {
    if |h| == 0 then []
    else
      var m := Message(firstId, h[0].content, if h[0].role == "user" then User else Assistant, h[0].createdAt * 1000);
      [m] + HistoryMessages(h[1..], firstId + 1)
  }

  /**
   * `loadHistory`: the list becomes the welcome message followed by one
   * message per history item, in order; the counter advances past them all.
   */
  function LoadHistory(c: Chat, h: seq<HistoryItem>): (r: Chat)
    ensures |r.messages| == |h| + 1 && r.messages[0] == Welcome(c.loadTime)
    ensures r.messages[1..] == HistoryMessages(h, c.nextId)
    ensures forall i | 0 <= i < |h| ::
      && r.messages[i + 1].id == c.nextId + i
      && r.messages[i + 1].text == h[i].content
      && (r.messages[i + 1].sender == User <==> h[i].role == "user")
      && r.messages[i + 1].timestamp == h[i].createdAt * 1000
    ensures r.nextId == c.nextId + |h| && r.loadTime == c.loadTime
    ensures Valid(c) ==> Valid(r)
  {
    var hs := HistoryMessages(h, c.nextId);
    var r := Chat([Welcome(c.loadTime)] + hs, c.nextId + |h|, c.loadTime);
    assert forall i | 0 <= i < |h| :: r.messages[i + 1] == hs[i];
    assert r.messages[1..] == hs;
    LoadedValid(c, h);
    r
  }

  /** A list whose head id is below `first` and whose tail is numbered from `first` on has distinct ids. */
  lemma NumberedFromValid(ms: seq<Message>, first: int)
    requires |ms| > 0 && ms[0].id < first
    requires forall i | 1 <= i < |ms| :: ms[i].id == first + i - 1
    ensures UniqueIds(ms)
    ensures forall i | 0 <= i < |ms| :: ms[i].id < first + |ms| - 1
  {
  }

  lemma LoadedValid(c: Chat, h: seq<HistoryItem>)
    ensures var ms := [Welcome(c.loadTime)] + HistoryMessages(h, c.nextId);
      Valid(c) ==> Valid(Chat(ms, c.nextId + |h|, c.loadTime))
  {
    var hs := HistoryMessages(h, c.nextId);
    if Valid(c) {
      NumberedAfter(Welcome(c.loadTime), hs, c.nextId);
    }
  }

  /** A message below `first` followed by messages numbered from `first` on has distinct ids. */
  lemma NumberedAfter(w: Message, hs: seq<Message>, first: int)
    requires w.id < first
    requires forall i | 0 <= i < |hs| :: hs[i].id == first + i
    ensures UniqueIds([w] + hs)
    ensures forall i | 0 <= i < |hs| + 1 :: ([w] + hs)[i].id < first + |hs|
  {
    var ms := [w] + hs;
    forall i | 1 <= i < |ms| ensures ms[i].id == first + i - 1 {
      assert ms[i] == hs[i - 1];
    }
    NumberedFromValid(ms, first);
  }

  // ---------------------------------------------------------------------
  // Properties relating several operations.
  // ---------------------------------------------------------------------

  /** Appending the empty string changes nothing. */
  lemma AppendEmptyIsIdentity(c: Chat, id: int)
    ensures AppendToMessage(c, id, "") == c
  {
    var r := AppendToMessage(c, id, "");
    assert forall i | 0 <= i < |c.messages| :: r.messages[i] == c.messages[i];
  }

  lemma {:induction false} AppendInTwice(ms: seq<Message>, id: int, a: string, b: string)
    ensures AppendIn(AppendIn(ms, id, a), id, b) == AppendIn(ms, id, a + b)
    decreases |ms|
  {
    if |ms| > 0 {
      var once := AppendIn(ms, id, a);
      assert once[1..] == AppendIn(ms[1..], id, a);
      AppendInTwice(ms[1..], id, a, b);
      if ms[0].id == id {
        assert ms[0].text + a + b == ms[0].text + (a + b);
      }
    }
  }

  /** Appending `a` then `b` is appending `a + b`. */
  lemma AppendTwice(c: Chat, id: int, a: string, b: string)
    ensures AppendToMessage(AppendToMessage(c, id, a), id, b) == AppendToMessage(c, id, a + b)
  {
    AppendInTwice(c.messages, id, a, b);
  }

  /** Appends each fragment in turn, as the stream callback does. */
  function AppendAll(c: Chat, id: int, fragments: seq<string>): Chat
    decreases |fragments|
  {
    if |fragments| == 0 then c else AppendAll(AppendToMessage(c, id, fragments[0]), id, fragments[1..])
  }

  lemma {:induction false} AppendAllIsConcat(c: Chat, id: int, fragments: seq<string>)
    ensures AppendAll(c, id, fragments) == AppendToMessage(c, id, Text.Concat(fragments))
    decreases |fragments|
  {
    if |fragments| == 0 {
      AppendEmptyIsIdentity(c, id);
    } else {
      var c1 := AppendToMessage(c, id, fragments[0]);
      AppendAllIsConcat(c1, id, fragments[1..]);
      AppendTwice(c, id, fragments[0], Text.Concat(fragments[1..]));
    }
  }

  /**
   * After `startAssistantMessage` and fragments f1..fn, the new message's text
   * is f1 + ... + fn and nothing else in the list has changed.
   */
  lemma StreamedReply(c: Chat, now: int, fragments: seq<string>)
    requires Valid(c)
    ensures var (c1, id) := StartAssistantMessage(c, now);
      var r := AppendAll(c1, id, fragments);
      && |r.messages| == |c.messages| + 1
      && r.messages[..|c.messages|] == c.messages
      && r.messages[|c.messages|] == Message(id, Text.Concat(fragments), Assistant, now)
      && Valid(r)
  {
    var (c1, id) := StartAssistantMessage(c, now);
    AppendAllIsConcat(c1, id, fragments);
    var r := AppendAll(c1, id, fragments);
    forall i | 0 <= i < |c.messages| ensures r.messages[i] == c.messages[i] {
      assert c1.messages[i] == c.messages[i];
    }
    assert "" + Text.Concat(fragments) == Text.Concat(fragments);
  }

  /** One call into the hook. */
  datatype Op =
    | Add(text: string, sender: Sender, now: int)
    | Start(now: int)
    | Append(id: int, chunk: string)
    | Load(history: seq<HistoryItem>)

  function Apply(c: Chat, op: Op): Chat {
    match op
    case Add(text, sender, now) => AddMessage(c, text, sender, now)
    case Start(now) => StartAssistantMessage(c, now).0
    case Append(id, chunk) => AppendToMessage(c, id, chunk)
    case Load(h) => LoadHistory(c, h)
  }

  function ApplyAll(c: Chat, ops: seq<Op>): Chat
    decreases |ops|
  {
    if |ops| == 0 then c else ApplyAll(Apply(c, ops[0]), ops[1..])
  }

  /**
   * Whatever sequence of operations runs, ids stay distinct and below the
   * counter, and the counter never decreases.
   */
  lemma {:induction false} OperationsKeepValid(c: Chat, ops: seq<Op>)
    requires Valid(c)
    ensures Valid(ApplyAll(c, ops)) && ApplyAll(c, ops).nextId >= c.nextId
    decreases |ops|
  {
    if |ops| > 0 {
      OperationsKeepValid(Apply(c, ops[0]), ops[1..]);
    }
  }
}

=== FILE: sse.dfy ===
/**
 * The line-oriented event-stream reader inside `streamAgentRun`.
 *
 * The reader keeps a carry-over buffer of text that has not yet seen a line
 * feed and the kind named by the last `event:` line. Each incoming chunk is
 * appended to the buffer, every completed line is interpreted, and the
 * unterminated tail is carried over; when the stream ends the tail is
 * interpreted once more. This is a simplified subset of the event-stream
 * format: a lone carriage return does not end a line, a `data:` line is
 * dispatched at once instead of at the next blank line, and blank lines do
 * not reset the event kind.
 */
module Sse {

  import opened Wrappers
  import opened Text

  /** The string-valued properties of a decoded JSON value (none for a non-object). */
  type Fields = map<string, string>

  /** `JSON.parse`, left uninterpreted: `None` is a payload that throws. */
  type JsonParser = string -> Option<Fields>

  /** `typeof obj?.[key] === 'string' ? obj[key] : absent`. */
  function StringField(obj: Fields, key: string): Option<string> {
    if key in obj then Some(obj[key]) else None
  }

  const ContentEvent := "RunContent"
  const CompletedEvent := "RunCompleted"
  const EventPrefix := "event:"
  const DataPrefix := "data:"

  /** What the reader reports to its caller: a text fragment, or the end of the run. */
  datatype Out = Content(text: string) | Completed(sessionId: Option<string>)

  datatype State = State(buffer: string, currentEvent: Option<string>)

  datatype StepResult = StepResult(state: State, outs: seq<Out>)

  /**
   * The reader's configuration: the JSON decoder, and whether the caller
   * supplied an `onRunCompleted` callback.
   */
  datatype Reader = Reader(parse: JsonParser, notifyCompleted: bool)

  const Init := State("", None)

  /** A trimmed line, classified the way the loop body tests it. */
  datatype Line = Blank | EventLine(kind: string) | DataLine(payload: string) | OtherLine

  function Classify(raw: string): (l: Line)
    ensures l.Blank? <==> AllWhitespace(raw)
    ensures l.EventLine? <==> StartsWith(Trim(raw), EventPrefix)
    ensures l.DataLine? <==> StartsWith(Trim(raw), DataPrefix) && !StartsWith(Trim(raw), EventPrefix)
    ensures l.EventLine? ==> l.kind == Trim(Trim(raw)[|EventPrefix|..])
    ensures l.DataLine? ==> l.payload == Trim(Trim(raw)[|DataPrefix|..])
  {
    var line := Trim(raw);
    if line == "" then Blank
    else if StartsWith(line, EventPrefix) then EventLine(Trim(line[|EventPrefix|..]))
    else if StartsWith(line, DataPrefix) then DataLine(Trim(line[|DataPrefix|..]))
    else OtherLine
  }

  predicate GoodOuts(outs: seq<Out>) {
    forall k | 0 <= k < |outs| :: outs[k].Content? ==> outs[k].text != ""
  }

  /** A `data:` payload under `RunContent`: its non-empty string `content`, if any. */
  function ContentOf(rd: Reader, payload: string): (outs: seq<Out>)
    ensures |outs| <= 1 && GoodOuts(outs)
    ensures outs != [] <==>
      rd.parse(payload).Some? && "content" in rd.parse(payload).value && rd.parse(payload).value["content"] != ""
    ensures outs != [] ==> outs[0] == Content(rd.parse(payload).value["content"])
  {
    match rd.parse(payload)
    case None => []
    case Some(obj) =>
      match StringField(obj, "content")
      case Some(c) => if c != "" then [Content(c)] else []
      case None => []
  }

  /** A `data:` payload under `RunCompleted`: one completion carrying the optional `session_id`. */
  function CompletedOf(rd: Reader, payload: string): (outs: seq<Out>)
    ensures outs != [] <==> rd.parse(payload).Some? && rd.notifyCompleted
    ensures outs != [] ==>
      outs == [Completed(if "session_id" in rd.parse(payload).value
                         then Some(rd.parse(payload).value["session_id"]) else None)]
  {
    match rd.parse(payload)
    case None => []
    case Some(obj) => if rd.notifyCompleted then [Completed(StringField(obj, "session_id"))] else []
  }

  /** What a classified line does under the current event kind. */
  function Interpret(rd: Reader, ev: Option<string>, l: Line): (r: (Option<string>, seq<Out>))
    ensures r.0 == (if l.EventLine? then Some(l.kind) else ev)
    ensures |r.1| <= 1 && GoodOuts(r.1)
    ensures r.1 != [] ==> l.DataLine? && rd.parse(l.payload).Some?
    ensures r.1 != [] ==> ev == Some(ContentEvent) || ev == Some(CompletedEvent)
  {
    match l
    case EventLine(kind) => (Some(kind), [])
    case DataLine(payload) =>
      if ev == Some(ContentEvent) then (ev, ContentOf(rd, payload))
      else if ev == Some(CompletedEvent) then (ev, CompletedOf(rd, payload))
      else (ev, [])
    case _ => (ev, [])
  }

  /** Interprets one completed line under the current event kind. */
  function ProcessLine(rd: Reader, ev: Option<string>, raw: string): (r: (Option<string>, seq<Out>))
    ensures var l := Classify(raw);
      && r.0 == (if l.EventLine? then Some(l.kind) else ev)
      && |r.1| <= 1 && GoodOuts(r.1)
      && (r.1 != [] ==> l.DataLine? && rd.parse(l.payload).Some?)
      && (r.1 != [] ==> ev == Some(ContentEvent) || ev == Some(CompletedEvent))
  {
    Interpret(rd, ev, Classify(raw))
  }

  /** Interprets completed lines in order, threading the event kind. */
  function ProcessLines(rd: Reader, ev: Option<string>, lines: seq<string>): (r: (Option<string>, seq<Out>))
    ensures GoodOuts(r.1)
    ensures |r.1| <= |lines|
    decreases |lines|
  {
    if |lines| == 0 then (ev, [])
    else
      var r1 := ProcessLine(rd, ev, lines[0]);
      var r2 := ProcessLines(rd, r1.0, lines[1..]);
      (r2.0, r1.1 + r2.1)
  }

  /** Removes the carriage return of a `\r\n` terminator. */
  function StripCR(line: string): (r: string)
    ensures line == r || line == r + "\r"
    ensures |line| > 0 && line[|line| - 1] == '\r' ==> line == r + "\r"
  {
    if |line| > 0 && line[|line| - 1] == '\r' then line[..|line| - 1] else line
  }

  /**
   * What `SplitLines` promises about its result: the tail has no line feed
   * and is a suffix of the text; no completed line holds a line feed;
   * without a line feed the whole text is the tail, and with one the tail is
   * exactly what follows the last line feed.
   */
  predicate SplitFacts(text: string, lines: seq<string>, rest: string) {
    && '\n' !in rest && |rest| <= |text| && rest == text[|text| - |rest|..]
    && (forall k | 0 <= k < |lines| :: '\n' !in lines[k])
    && ('\n' !in text ==> lines == [] && rest == text)
    && ('\n' in text ==> |rest| < |text| && text[|text| - |rest| - 1] == '\n')
  }

  /**
   * `text.split(/\r?\n/)` followed by `pop()`: the completed lines (without
   * their terminators) and the unterminated tail, which is everything after
   * the last line feed.
   */
  function SplitLines(text: string): (r: (seq<string>, string))
    ensures SplitFacts(text, r.0, r.1)
    decreases |text|
  {
    if '\n' !in text then ([], text)
    else
      var i := IndexOf(text, '\n');
      var r := SplitLines(text[i + 1..]);
      SplitOneLine(text, i, r.0, r.1);
      ([StripCR(text[..i])] + r.0, r.1)
  }

  lemma SplitOneLine(text: string, i: nat, lines: seq<string>, rest: string)
    requires i < |text| && text[i] == '\n' && '\n' !in text[..i]
    requires SplitFacts(text[i + 1..], lines, rest)
    ensures SplitFacts(text, [StripCR(text[..i])] + lines, rest)
  {
    var t := text[i + 1..];
    var line := StripCR(text[..i]);
    assert '\n' !in line by {
      assert forall k | 0 <= k < |line| :: line[k] == text[..i][k];
    }
    var all := [line] + lines;
    assert forall k | 1 <= k < |all| :: all[k] == lines[k - 1];
    assert rest == text[|text| - |rest|..];
    if '\n' in t {
      assert t[|t| - |rest| - 1] == text[|text| - |rest| - 1];
    }
  }

  /** One chunk: append it to the buffer, interpret the completed lines, keep the tail. */
  function Step(rd: Reader, s: State, chunk: string): (r: StepResult)
    ensures '\n' !in r.state.buffer
    ensures GoodOuts(r.outs)
  {
    var (lines, rest) := SplitLines(s.buffer + chunk);
    var (ev, outs) := ProcessLines(rd, s.currentEvent, lines);
    StepResult(State(rest, ev), outs)
  }

  /**
   * End of stream: the trimmed tail, if it is a `data:` line under
   * `RunContent`, yields its content; nothing else is reported.
   */
  function Flush(rd: Reader, s: State): (outs: seq<Out>)
    ensures |outs| <= 1 && GoodOuts(outs)
    ensures outs != [] ==> outs[0].Content?
    ensures outs != [] ==> s.currentEvent == Some(ContentEvent) && Classify(s.buffer).DataLine?
    ensures s.currentEvent == Some(ContentEvent) && Classify(s.buffer).DataLine? ==>
      outs == ContentOf(rd, Classify(s.buffer).payload)
  {
    match Classify(s.buffer)
    case DataLine(payload) => if s.currentEvent == Some(ContentEvent) then ContentOf(rd, payload) else []
    case _ => []
  }

  /** Folds `Step` over the chunks in arrival order. */
  function Run(rd: Reader, s: State, chunks: seq<string>): (r: StepResult)
    ensures GoodOuts(r.outs)
    decreases |chunks|
  {
    if |chunks| == 0 then StepResult(s, [])
    else
      var r1 := Step(rd, s, chunks[0]);
      var r2 := Run(rd, r1.state, chunks[1..]);
      StepResult(r2.state, r1.outs + r2.outs)
  }

  /**
   * The flush treats the tail as one more line, except that a completion is
   * never reported from it.
   */
  lemma FlushIsLastLine(rd: Reader, s: State)
    ensures Flush(rd, s) ==
      (if s.currentEvent == Some(CompletedEvent) then [] else ProcessLine(rd, s.currentEvent, s.buffer).1)
  {
    assert ProcessLine(rd, s.currentEvent, s.buffer) == Interpret(rd, s.currentEvent, Classify(s.buffer));
  }

  lemma AppendAssoc(x: seq<Out>, y: seq<Out>, z: seq<Out>)
    ensures x + (y + z) == (x + y) + z
  {
  }

  /** Interpreting `a + b` is interpreting `a`, then `b` under the kind `a` left. */
  lemma {:induction false} ProcessLinesAppend(rd: Reader, ev: Option<string>, a: seq<string>, b: seq<string>)
    ensures ProcessLines(rd, ev, a + b) ==
      (ProcessLines(rd, ProcessLines(rd, ev, a).0, b).0,
       ProcessLines(rd, ev, a).1 + ProcessLines(rd, ProcessLines(rd, ev, a).0, b).1)
    decreases |a|
  {
    if |a| == 0 {
      assert a + b == b;
      assert [] + ProcessLines(rd, ev, b).1 == ProcessLines(rd, ev, b).1;
    } else {
      var ab := a + b;
      assert ab[0] == a[0];
      assert ab[1..] == a[1..] + b;
      var r1 := ProcessLine(rd, ev, a[0]);
      var mid := ProcessLines(rd, r1.0, a[1..]);
      var fin := ProcessLines(rd, mid.0, b);
      var rest := ProcessLines(rd, r1.0, ab[1..]);
      assert ProcessLines(rd, ev, a) == (mid.0, r1.1 + mid.1);
      assert ProcessLines(rd, ev, ab) == (rest.0, r1.1 + rest.1);
      ProcessLinesAppend(rd, r1.0, a[1..], b);
      assert rest == (fin.0, mid.1 + fin.1);
      AppendAssoc(r1.1, mid.1, fin.1);
    }
  }

  /** Everything one call of `streamAgentRun` reports, from a fresh reader. */
  function Stream(rd: Reader, chunks: seq<string>): (outs: seq<Out>)
    ensures GoodOuts(outs)
  {
    var r := Run(rd, Init, chunks);
    r.outs + Flush(rd, r.state)
  }

  // ---------------------------------------------------------------------
  // Reference machine: the same reader, one character at a time.
  // ---------------------------------------------------------------------

  /**
   * One character: a line feed ends the buffered line, which is interpreted
   * at once; any other character is buffered.
   */
  function FeedChar(rd: Reader, s: State, c: char): StepResult {
    if c == '\n' then
      var (ev, outs) := ProcessLine(rd, s.currentEvent, StripCR(s.buffer));
      StepResult(State("", ev), outs)
    else
      StepResult(State(s.buffer + [c], s.currentEvent), [])
  }

  /** The reference reader: `FeedChar` folded over the text. */
  function Feed(rd: Reader, s: State, text: string): StepResult
    decreases |text|
  {
    if |text| == 0 then StepResult(s, [])
    else
      var r1 := FeedChar(rd, s, text[0]);
      var r2 := Feed(rd, r1.state, text[1..]);
      StepResult(r2.state, r1.outs + r2.outs)
  }

  lemma SplitLinesAfterLine(b: string, t: string)
    requires '\n' !in b
    ensures SplitLines(b + "\n" + t) == ([StripCR(b)] + SplitLines(t).0, SplitLines(t).1)
  {
    var text := b + "\n" + t;
    assert text[|b|] == '\n';
    assert text[..|b|] == b;
    assert IndexOf(text, '\n') == |b|;
    assert text[|b| + 1..] == t;
  }

  /** On a buffer without a line feed, the chunk-at-once step agrees with the reference machine. */
  lemma {:induction false} StepIsFeed(rd: Reader, s: State, chunk: string)
    requires '\n' !in s.buffer
    ensures Step(rd, s, chunk) == Feed(rd, s, chunk)
    decreases |chunk|
  {
    if |chunk| == 0 {
      assert s.buffer + chunk == s.buffer;
    } else if chunk[0] == '\n' {
      var t := chunk[1..];
      assert s.buffer + chunk == s.buffer + "\n" + t;
      SplitLinesAfterLine(s.buffer, t);
      var (ev, o1) := ProcessLine(rd, s.currentEvent, StripCR(s.buffer));
      StepIsFeed(rd, State("", ev), t);
      assert "" + t == t;
    } else {
      var s' := State(s.buffer + [chunk[0]], s.currentEvent);
      assert s'.buffer + chunk[1..] == s.buffer + chunk;
      StepIsFeed(rd, s', chunk[1..]);
    }
  }

  lemma {:induction false} FeedAppend(rd: Reader, s: State, a: string, b: string)
    ensures Feed(rd, s, a + b) ==
      StepResult(Feed(rd, Feed(rd, s, a).state, b).state,
                 Feed(rd, s, a).outs + Feed(rd, Feed(rd, s, a).state, b).outs)
    decreases |a|
  {
    if |a| == 0 {
      assert a + b == b;
    } else {
      var t := a[1..];
      assert (a + b)[0] == a[0];
      assert (a + b)[1..] == t + b;
      var r1 := FeedChar(rd, s, a[0]);
      var mid := Feed(rd, r1.state, t);
      var fin := Feed(rd, mid.state, b);
      FeedAppend(rd, r1.state, t, b);
      assert r1.outs + (mid.outs + fin.outs) == (r1.outs + mid.outs) + fin.outs;
    }
  }

  /** Feeding `a + b` is feeding `a`, then `b` from where `a` left off. */
  lemma StepAppend(rd: Reader, s: State, a: string, b: string)
    requires '\n' !in s.buffer
    ensures Step(rd, s, a + b) ==
      StepResult(Step(rd, Step(rd, s, a).state, b).state,
                 Step(rd, s, a).outs + Step(rd, Step(rd, s, a).state, b).outs)
  {
    StepIsFeed(rd, s, a + b);
    StepIsFeed(rd, s, a);
    StepIsFeed(rd, Step(rd, s, a).state, b);
    FeedAppend(rd, s, a, b);
  }

  lemma StepEmpty(rd: Reader, s: State)
    requires '\n' !in s.buffer
    ensures Step(rd, s, "") == StepResult(s, [])
  {
    assert s.buffer + "" == s.buffer;
    assert SplitLines(s.buffer) == ([], s.buffer);
  }

  /** Folding over the chunks is one step over their concatenation. */
  lemma {:induction false} RunIsStep(rd: Reader, s: State, chunks: seq<string>)
    requires '\n' !in s.buffer
    ensures Run(rd, s, chunks) == Step(rd, s, Concat(chunks))
    decreases |chunks|
  {
    if |chunks| == 0 {
      StepEmpty(rd, s);
    } else {
      var rest := Concat(chunks[1..]);
      assert Concat(chunks) == chunks[0] + rest;
      var r1 := Step(rd, s, chunks[0]);
      var r2 := Run(rd, r1.state, chunks[1..]);
      assert Run(rd, s, chunks) == StepResult(r2.state, r1.outs + r2.outs);
      RunIsStep(rd, r1.state, chunks[1..]);
      assert r2 == Step(rd, r1.state, rest);
      StepAppend(rd, s, chunks[0], rest);
      assert Step(rd, s, chunks[0] + rest) == StepResult(r2.state, r1.outs + r2.outs);
    }
  }

  /**
   * One full call reports what the reference reader reports for the whole
   * text, line by line in order, followed by the flush of the unterminated
   * tail.
   */
  lemma StreamIsFeed(rd: Reader, chunks: seq<string>)
    ensures var f := Feed(rd, Init, Concat(chunks));
      Stream(rd, chunks) == f.outs + Flush(rd, f.state)
  {
    RunIsStep(rd, Init, chunks);
    StepIsFeed(rd, Init, Concat(chunks));
  }

  /** A completed line is classified as written: the carriage return before its line feed is trimmed anyway. */
  lemma ClassifyStripCR(b: string)
    ensures Classify(StripCR(b)) == Classify(b)
  {
    if |b| > 0 && b[|b| - 1] == '\r' {
      TrimDropLast(b);
    }
  }

  /** The text made of the given lines, each followed by a line feed. */
  function Lines(ls: seq<string>): string
    decreases |ls|
  {
    if |ls| == 0 then "" else ls[0] + "\n" + Lines(ls[1..])
  }

  /**
   * From an empty buffer, one step over whole lines and a tail interprets
   * each line as written and carries the tail.
   */
  lemma {:induction false} StepLines(rd: Reader, ev: Option<string>, ls: seq<string>, tail: string)
    requires forall k | 0 <= k < |ls| :: '\n' !in ls[k]
    requires '\n' !in tail
    ensures var p := ProcessLines(rd, ev, ls);
      Step(rd, State("", ev), Lines(ls) + tail) == StepResult(State(tail, p.0), p.1)
    decreases |ls|
  {
    if |ls| == 0 {
      assert "" + ("" + tail) == tail;
      assert SplitLines(tail) == ([], tail);
    } else {
      var b, t := ls[0], Lines(ls[1..]) + tail;
      assert "" + (Lines(ls) + tail) == b + "\n" + t;
      SplitLinesAfterLine(b, t);
      ClassifyStripCR(b);
      var r1 := ProcessLine(rd, ev, b);
      assert ProcessLine(rd, ev, StripCR(b)) == r1;
      StepLines(rd, r1.0, ls[1..], tail);
      assert "" + t == t;
    }
  }

  /**
   * What one full call reports, line by line: each line of the text, as
   * written, in order, and then the flush of the unterminated tail under the
   * kind the lines left.
   */
  lemma StreamReportsLines(rd: Reader, chunks: seq<string>, ls: seq<string>, tail: string)
    requires forall k | 0 <= k < |ls| :: '\n' !in ls[k]
    requires '\n' !in tail && Concat(chunks) == Lines(ls) + tail
    ensures var p := ProcessLines(rd, None, ls);
      Stream(rd, chunks) == p.1 + Flush(rd, State(tail, p.0))
  {
    RunIsStep(rd, Init, chunks);
    StepLines(rd, None, ls, tail);
  }

  /**
   * Chunk-boundary invariance: what the reader reports depends only on the
   * concatenated text, not on where the transport split it.
   */
  lemma ChunkBoundaryInvariance(rd: Reader, c1: seq<string>, c2: seq<string>)
    requires Concat(c1) == Concat(c2)
    ensures Stream(rd, c1) == Stream(rd, c2)
  {
    RunIsStep(rd, Init, c1);
    RunIsStep(rd, Init, c2);
  }

  // ---------------------------------------------------------------------
  // Per-line behaviour.
  // ---------------------------------------------------------------------

  /** Under `RunContent` a data line reports its string `content` exactly when it is non-empty. */
  lemma ContentDataLine(rd: Reader, raw: string)
    requires Classify(raw).DataLine?
    ensures var p := rd.parse(Classify(raw).payload);
      ProcessLine(rd, Some(ContentEvent), raw) ==
        (Some(ContentEvent),
         if p.Some? && "content" in p.value && p.value["content"] != "" then [Content(p.value["content"])] else [])
  {
    ContentLine(rd, Classify(raw));
    assert ProcessLine(rd, Some(ContentEvent), raw) == Interpret(rd, Some(ContentEvent), Classify(raw));
  }

  /** `ContentDataLine` for a line already classified. */
  lemma ContentLine(rd: Reader, l: Line)
    requires l.DataLine?
    ensures var p := rd.parse(l.payload);
      Interpret(rd, Some(ContentEvent), l) ==
        (Some(ContentEvent),
         if p.Some? && "content" in p.value && p.value["content"] != "" then [Content(p.value["content"])] else [])
  {
  }

  /**
   * Under `RunCompleted` a parseable data line reports one completion with
   * the optional `session_id` when the caller passed a callback, and nothing
   * otherwise.
   */
  lemma CompletedDataLine(rd: Reader, raw: string)
    requires Classify(raw).DataLine?
    requires rd.parse(Classify(raw).payload).Some?
    ensures var obj := rd.parse(Classify(raw).payload).value;
      ProcessLine(rd, Some(CompletedEvent), raw) ==
        (Some(CompletedEvent),
         if rd.notifyCompleted
         then [Completed(if "session_id" in obj then Some(obj["session_id"]) else None)]
         else [])
  {
    CompletedLine(rd, Classify(raw));
    assert ProcessLine(rd, Some(CompletedEvent), raw) == Interpret(rd, Some(CompletedEvent), Classify(raw));
  }

  /** `CompletedDataLine` for a line already classified. */
  lemma CompletedLine(rd: Reader, l: Line)
    requires l.DataLine? && rd.parse(l.payload).Some?
    ensures var obj := rd.parse(l.payload).value;
      Interpret(rd, Some(CompletedEvent), l) ==
        (Some(CompletedEvent),
         if rd.notifyCompleted
         then [Completed(if "session_id" in obj then Some(obj["session_id"]) else None)]
         else [])
  {
  }

  /** A payload that does not parse is dropped and the event kind is kept. */
  lemma MalformedPayloadIgnored(rd: Reader, ev: Option<string>, raw: string)
    requires Classify(raw).DataLine? && rd.parse(Classify(raw).payload).None?
    ensures ProcessLine(rd, ev, raw) == (ev, [])
  {
  }

  /** Data lines under any other kind, or before any `event:` line, report nothing. */
  lemma OtherKindsSilent(rd: Reader, ev: Option<string>, raw: string)
    requires ev != Some(ContentEvent) && ev != Some(CompletedEvent)
    requires !Classify(raw).EventLine?
    ensures ProcessLine(rd, ev, raw) == (ev, [])
  {
  }

  /** Blank and whitespace-only lines are skipped and do not reset the event kind. */
  lemma BlankLineKeepsEvent(rd: Reader, ev: Option<string>, raw: string)
    requires AllWhitespace(raw)
    ensures ProcessLine(rd, ev, raw) == (ev, [])
  {
  }

  /** The event kind persists across any run of lines that holds no `event:` line. */
  lemma {:induction false} EventPersists(rd: Reader, ev: Option<string>, lines: seq<string>)
    requires forall k | 0 <= k < |lines| :: !Classify(lines[k]).EventLine?
    ensures ProcessLines(rd, ev, lines).0 == ev
    decreases |lines|
  {
    if |lines| > 0 {
      EventPersists(rd, ev, lines[1..]);
    }
  }
}

=== FILE: text.dfy ===
/**
 * String helpers shared by the parser and the validators: the JavaScript
 * whitespace class (used both by `String.prototype.trim` and by the regular
 * expression class `\s`), trimming, and prefix tests.
 */
module Text {

  /** The characters ECMAScript counts as WhiteSpace or LineTerminator. */
  predicate IsWhitespace(c: char) {
    || c == '\t' || c == '\n' || c == '\U{B}' || c == '\U{C}' || c == '\r'
    || c == ' ' || c == '\U{A0}' || c == '\U{1680}'
    || ('\U{2000}' <= c <= '\U{200A}')
    || c == '\U{2028}' || c == '\U{2029}' || c == '\U{202F}' || c == '\U{205F}'
    || c == '\U{3000}' || c == '\U{FEFF}'
  }

  predicate AllWhitespace(s: string) {
    forall k | 0 <= k < |s| :: IsWhitespace(s[k])
  }

  /** The first position at or after `i` that does not hold whitespace, or `|s|`. */
  function SkipStart(s: string, i: nat): (j: nat)
    requires i <= |s|
    ensures i <= j <= |s|
    ensures forall k | i <= k < j :: IsWhitespace(s[k])
    ensures j < |s| ==> !IsWhitespace(s[j])
    decreases |s| - i
  {
    if i == |s| || !IsWhitespace(s[i]) then i else SkipStart(s, i + 1)
  }

  /** The least end `e` at or above `lo` such that `s[e..j]` is all whitespace. */
  function SkipEnd(s: string, lo: nat, j: nat): (e: nat)
    requires lo <= j <= |s|
    ensures lo <= e <= j
    ensures forall k | e <= k < j :: IsWhitespace(s[k])
    ensures e > lo ==> !IsWhitespace(s[e - 1])
    decreases j
  {
    if j == lo || !IsWhitespace(s[j - 1]) then j else SkipEnd(s, lo, j - 1)
  }

  /**
   * `String.prototype.trim`: the input with its leading and trailing
   * whitespace removed and nothing else; no whitespace at either end of the
   * result, which is empty exactly when the input is all whitespace.
   */
  function Trim(s: string): (r: string)
    ensures |r| <= |s|
    ensures |r| > 0 ==> !IsWhitespace(r[0]) && !IsWhitespace(r[|r| - 1])
    ensures r == [] <==> AllWhitespace(s)
    ensures exists a | 0 <= a <= |s| - |r| ::
      r == s[a..a + |r|] && AllWhitespace(s[..a]) && AllWhitespace(s[a + |r|..])
  {
    var a := SkipStart(s, 0);
    var e := SkipEnd(s, a, |s|);
    Margins(s, a, e);
    s[a..e]
  }

  /** The facts `Trim` promises, from the two scans' contracts. */
  lemma Margins(s: string, a: nat, e: nat)
    requires a <= e <= |s|
    requires forall k | 0 <= k < a :: IsWhitespace(s[k])
    requires forall k | e <= k < |s| :: IsWhitespace(s[k])
    requires a < |s| ==> !IsWhitespace(s[a])
    requires e > a ==> !IsWhitespace(s[e - 1])
    ensures s[a..e] == [] <==> AllWhitespace(s)
    ensures AllWhitespace(s[..a]) && AllWhitespace(s[e..])
  {
    assert forall k | 0 <= k < a :: s[..a][k] == s[k];
    assert forall k | 0 <= k < |s| - e :: s[e..][k] == s[e + k];
  }

  /** Scanning a prefix of `s` from `i` stops where scanning `s` does, unless it runs off the prefix. */
  lemma {:induction false} SkipStartPrefix(s: string, n: nat, i: nat)
    requires i <= n <= |s|
    ensures SkipStart(s[..n], i) < n ==> SkipStart(s, i) == SkipStart(s[..n], i)
    ensures SkipStart(s[..n], i) == n ==> SkipStart(s, i) == SkipStart(s, n)
    decreases n - i
  {
    if i < n {
      assert s[..n][i] == s[i];
      if IsWhitespace(s[i]) { SkipStartPrefix(s, n, i + 1); }
    }
  }

  /** Scanning back from `j` inside a prefix of `s` reads only that prefix. */
  lemma {:induction false} SkipEndPrefix(s: string, n: nat, lo: nat, j: nat)
    requires lo <= j <= n <= |s|
    ensures SkipEnd(s[..n], lo, j) == SkipEnd(s, lo, j)
    decreases j
  {
    if j > lo {
      assert s[..n][j - 1] == s[j - 1];
      if IsWhitespace(s[j - 1]) { SkipEndPrefix(s, n, lo, j - 1); }
    }
  }

  /** The slice between the two scans, which is what `Trim` returns. */
  function Scanned(s: string): string {
    var a := SkipStart(s, 0);
    s[a..SkipEnd(s, a, |s|)]
  }

  lemma TrimIsScan(s: string)
    ensures Trim(s) == Scanned(s)
  {
  }

  /** The scans of `s` agree with those of `s` without its trailing whitespace character. */
  lemma ScanDropLast(s: string) returns (a: nat, e: nat)
    requires |s| > 0 && IsWhitespace(s[|s| - 1])
    ensures a == SkipStart(s[..|s| - 1], 0) && e == SkipEnd(s[..|s| - 1], a, |s| - 1)
    ensures a == SkipStart(s, 0) || (a == e == |s| - 1 && SkipStart(s, 0) == |s|)
    ensures a < |s| - 1 ==> e == SkipEnd(s, a, |s|)
  {
    var n := |s| - 1;
    SkipStartPrefix(s, n, 0);
    a := SkipStart(s[..n], 0);
    e := SkipEnd(s[..n], a, n);
    if a == n {
      assert SkipStart(s, n) == |s|;
    } else {
      assert SkipEnd(s, a, |s|) == SkipEnd(s, a, n);
      SkipEndPrefix(s, n, a, n);
    }
  }

  lemma SliceOfPrefix(s: string, n: nat, a: nat, e: nat)
    requires a <= e <= n <= |s|
    ensures s[..n][a..e] == s[a..e]
  {
  }

  lemma ScannedDropLast(s: string)
    requires |s| > 0 && IsWhitespace(s[|s| - 1])
    ensures Scanned(s[..|s| - 1]) == Scanned(s)
  {
    var a, e := ScanDropLast(s);
    if a < |s| - 1 {
      SliceOfPrefix(s, |s| - 1, a, e);
    }
  }

  /** Trimming ignores a trailing whitespace character. */
  lemma TrimDropLast(s: string)
    requires |s| > 0 && IsWhitespace(s[|s| - 1])
    ensures Trim(s[..|s| - 1]) == Trim(s)
  {
    TrimIsScan(s);
    TrimIsScan(s[..|s| - 1]);
    ScannedDropLast(s);
  }

  predicate StartsWith(s: string, prefix: string) {
    |prefix| <= |s| && s[..|prefix|] == prefix
  }

  /** The first position of `c` in `s`. */
  function IndexOf(s: string, c: char): (i: nat)
    requires c in s
    ensures i < |s| && s[i] == c && c !in s[..i]
  {
    if s[0] == c then 0 else 1 + IndexOf(s[1..], c)
  }

  /** The concatenation of a sequence of strings. */
  function Concat(parts: seq<string>): string {
    if |parts| == 0 then "" else parts[0] + Concat(parts[1..])
  }
}

=== FILE: theme.dfy ===
/**
 * The colour-scheme state of the `useTheme` hook: the user's preference and
 * the operating system's scheme. Storage and media-query access become
 * inputs; writing the class list of the document element is left out.
 */
module Theme {

  import opened Wrappers

  const Light := "light"
  const Dark := "dark"
  const Auto := "auto"

  predicate IsTheme(t: string) {
    t == Light || t == Dark || t == Auto
  }

  /** The outcome of reading the stored preference: a value or `null`, or an exception. */
  datatype StorageRead = Stored(value: Option<string>) | ReadFailed

  /** The outcome of writing the preference back. */
  datatype StorageWrite = Written | WriteFailed

  /**
   * `preference` is a string because the stored value is cast to a theme
   * without being checked; `system` is what the media query reports.
   */
  datatype ThemeState = ThemeState(preference: string, system: string)

  /** The system scheme is always concrete. */
  predicate WellFormed(s: ThemeState) {
    s.system == Light || s.system == Dark
  }

  /** `(stored as Theme) || 'auto'`, with a failed read also giving `auto`. */
  function InitialPreference(read: StorageRead): (t: string)
    ensures t == Auto <==> read.ReadFailed? || read.value.None? || read.value.value in {"", Auto}
    ensures t != Auto ==> read == Stored(Some(t))
  {
    match read
    case ReadFailed => Auto
    case Stored(None) => Auto
    case Stored(Some(v)) => if v == "" then Auto else v
  }

  /** The media query `(prefers-color-scheme: dark)`; `None` when it is unavailable. */
  function SystemTheme(prefersDark: Option<bool>): (t: string)
    ensures t == Light || t == Dark
    ensures t == Dark <==> prefersDark == Some(true)
  {
    if prefersDark == Some(true) then Dark else Light
  }

  function InitialState(read: StorageRead, prefersDark: Option<bool>): (s: ThemeState)
    ensures WellFormed(s)
    ensures s.system == SystemTheme(prefersDark) && s.preference == InitialPreference(read)
    ensures read.ReadFailed? || read == Stored(None) ==> s.preference == Auto
    ensures s.preference == Auto ==> (ActualTheme(s) == Dark <==> prefersDark == Some(true))
  {
    ThemeState(InitialPreference(read), SystemTheme(prefersDark))
  }

  /** The scheme in force: the system's under `auto`, the preference otherwise. */
  function ActualTheme(s: ThemeState): (t: string)
    ensures s.preference == Auto ==> t == s.system
    ensures s.preference != Auto ==> t == s.preference
    ensures WellFormed(s) && IsTheme(s.preference) ==> t == Light || t == Dark
  {
    if s.preference == Auto then s.system else s.preference
  }

  /**
   * A stored value is used unchecked: any non-empty value other than `auto`,
   * such as `"blue"`, becomes the scheme in force.
   */
  lemma StoredValueInForce(v: string, prefersDark: Option<bool>)
    requires v != "" && v != Auto
    ensures ActualTheme(InitialState(Stored(Some(v)), prefersDark)) == v
  {
  }

  /** The media-query change listener. */
  function SystemChanged(s: ThemeState, matches: bool): (r: ThemeState)
    ensures WellFormed(r) && r.preference == s.preference
    ensures r.system == SystemTheme(Some(matches))
    ensures s.preference == Auto ==> (ActualTheme(r) == Dark <==> matches)
  {
    s.(system := if matches then Dark else Light)
  }

  /**
   * `changeTheme`: the preference becomes `t` whether or not persisting it
   * succeeds; the second component is whether a warning was logged.
   */
  function ChangeTheme(s: ThemeState, t: string, write: StorageWrite): (r: (ThemeState, bool))
    ensures r.0.preference == t && r.0.system == s.system
    ensures r.1 <==> write.WriteFailed?
  {
    (s.(preference := t), write.WriteFailed?)
  }

  /**
   * A change of preference takes effect at once, whether or not it could be
   * saved: the scheme in force becomes `t`, or the system's under `auto`.
   */
  lemma ChangeThemeTakesEffect(s: ThemeState, t: string, w: StorageWrite)
    ensures ActualTheme(ChangeTheme(s, t, w).0) == (if t == Auto then s.system else t)
  {
  }

  /** `toggleTheme`: `dark` if the scheme in force is `light`, `light` otherwise. */
  function ToggleTheme(s: ThemeState, write: StorageWrite): (r: (ThemeState, bool))
    ensures r.0.preference != Auto && r.0.system == s.system
    ensures r.0.preference == (if ActualTheme(s) == Light then Dark else Light)
    ensures ActualTheme(r.0) != ActualTheme(s)
    ensures r.1 <==> write.WriteFailed?
  {
    ChangeTheme(s, if ActualTheme(s) == Light then Dark else Light, write)
  }

  /** For a well-formed state and a known preference, the scheme in force is never `auto`. */
  lemma ActualNeverAuto(s: ThemeState)
    requires WellFormed(s) && IsTheme(s.preference)
    ensures ActualTheme(s) != Auto
  {
  }

  /** Toggling twice restores the scheme in force. */
  lemma ToggleTwiceRestores(s: ThemeState, w1: StorageWrite, w2: StorageWrite)
    requires WellFormed(s) && IsTheme(s.preference)
    ensures ActualTheme(ToggleTheme(ToggleTheme(s, w1).0, w2).0) == ActualTheme(s)
  {
  }

  /**
   * From an unknown stored preference such as `"blue"`, which is itself the
   * scheme in force, two toggles give `light` and then `dark`: the original
   * scheme is not restored.
   */
  lemma ToggleTwiceFromUnknown(s: ThemeState, w1: StorageWrite, w2: StorageWrite)
    requires !IsTheme(s.preference)
    ensures ActualTheme(ToggleTheme(s, w1).0) == Light
    ensures ActualTheme(ToggleTheme(ToggleTheme(s, w1).0, w2).0) == Dark
    ensures ActualTheme(ToggleTheme(ToggleTheme(s, w1).0, w2).0) != ActualTheme(s)
  {
  }
}

=== FILE: tools.dfy ===
/** The tool switches kept by the `useTools` hook. */
module Tools {

  datatype Tool = Tool(id: string, name: string, description: string, enabled: bool)

  const InitialTools: seq<Tool> := [
    Tool("web-search", "网络搜索", "搜索最新的网络信息和资料", true),
    Tool("code-interpreter", "代码解释器", "执行和解释代码片段", false),
    Tool("image-generator", "图像生成", "生成和编辑图像内容", false),
    Tool("file-analyzer", "文件分析", "分析和处理上传的文件", true),
    Tool("calculator", "计算器", "执行数学计算和公式", false)
  ]

  predicate UniqueIds(ts: seq<Tool>) {
    forall i, j | 0 <= i < j < |ts| :: ts[i].id != ts[j].id
  }

  /**
   * `toggleTool`: same length and order, every id, name and description kept;
   * `enabled` flips exactly on the tools carrying `id`.
   */
  function ToggleTool(ts: seq<Tool>, id: string): (r: seq<Tool>)
    ensures |r| == |ts|
    ensures forall i | 0 <= i < |ts| ::
      && r[i].id == ts[i].id && r[i].name == ts[i].name && r[i].description == ts[i].description
      && r[i].enabled == (if ts[i].id == id then !ts[i].enabled else ts[i].enabled)
  {
    if |ts| == 0 then []
    else
      var t := if ts[0].id == id then ts[0].(enabled := !ts[0].enabled) else ts[0];
      [t] + ToggleTool(ts[1..], id)
  }

  /** An id no tool carries leaves the list as it was. */
  lemma ToggleUnknownId(ts: seq<Tool>, id: string)
    requires forall i | 0 <= i < |ts| :: ts[i].id != id
    ensures ToggleTool(ts, id) == ts
  {
    var r := ToggleTool(ts, id);
    assert forall i | 0 <= i < |ts| :: r[i] == ts[i];
  }

  /** Toggling the same id twice restores the list. */
  lemma ToggleTwice(ts: seq<Tool>, id: string)
    ensures ToggleTool(ToggleTool(ts, id), id) == ts
  {
    var r := ToggleTool(ToggleTool(ts, id), id);
    assert forall i | 0 <= i < |ts| :: r[i] == ts[i];
  }

  /**
   * `tools.filter(tool => tool.enabled)`: every enabled tool as often as it
   * occurs, and no other.
   */
  function EnabledTools(ts: seq<Tool>): (r: seq<Tool>)
    ensures |r| <= |ts|
    ensures forall t :: t in r <==> t in ts && t.enabled
  {
    if |ts| == 0 then []
    else if ts[0].enabled then [ts[0]] + EnabledTools(ts[1..])
    else EnabledTools(ts[1..])
  }

  /** The filter keeps every enabled tool exactly as often as it occurs, and drops the rest. */
  lemma {:induction false} EnabledToolsMultiplicity(ts: seq<Tool>)
    ensures forall t :: multiset(EnabledTools(ts))[t] == if t.enabled then multiset(ts)[t] else 0
  {
    if |ts| > 0 {
      EnabledToolsMultiplicity(ts[1..]);
      assert ts == [ts[0]] + ts[1..];
    }
  }

  /** The `enabled` flags, in order. */
  function Flags(ts: seq<Tool>): seq<bool> {
    seq(|ts|, i requires 0 <= i < |ts| => ts[i].enabled)
  }

  /**
   * `enabledToolsCount`: the number of tools whose flag is on; never more
   * than there are tools, zero exactly when all are off, and the full length
   * exactly when all are on.
   */
  function EnabledToolsCount(ts: seq<Tool>): (n: nat)
    ensures n == multiset(Flags(ts))[true]
    ensures n <= |ts|
    ensures n == 0 <==> forall i | 0 <= i < |ts| :: !ts[i].enabled
    ensures n == |ts| <==> forall i | 0 <= i < |ts| :: ts[i].enabled
  {
    CountFacts(ts);
    CountIsFlags(ts);
    |EnabledTools(ts)|
  }

  lemma {:induction false} CountIsFlags(ts: seq<Tool>)
    ensures |EnabledTools(ts)| == multiset(Flags(ts))[true]
  {
    if |ts| > 0 {
      CountIsFlags(ts[1..]);
      assert Flags(ts) == [ts[0].enabled] + Flags(ts[1..]);
    }
  }

  lemma {:induction false} CountFacts(ts: seq<Tool>)
    ensures |EnabledTools(ts)| == 0 <==> forall i | 0 <= i < |ts| :: !ts[i].enabled
    ensures |EnabledTools(ts)| == |ts| <==> forall i | 0 <= i < |ts| :: ts[i].enabled
  {
    if |ts| > 0 {
      CountFacts(ts[1..]);
      assert forall i | 1 <= i < |ts| :: ts[i] == ts[1..][i - 1];
    }
  }

  /**
   * With distinct ids, toggling a tool that is present changes the count by
   * exactly one: down if it was on, up if it was off.
   */
  lemma {:induction false} ToggleChangesCountByOne(ts: seq<Tool>, k: nat)
    requires UniqueIds(ts) && k < |ts|
    ensures EnabledToolsCount(ToggleTool(ts, ts[k].id)) ==
      EnabledToolsCount(ts) + (if ts[k].enabled then -1 else 1)
    decreases k
  {
    var id := ts[k].id;
    var r := ToggleTool(ts, id);
    assert r[1..] == ToggleTool(ts[1..], id);
    if k == 0 {
      ToggleUnknownId(ts[1..], id);
    } else {
      assert ts[0].id != id;
      ToggleChangesCountByOne(ts[1..], k - 1);
    }
  }

  /** The initial tools have distinct ids. */
  lemma InitialToolIdsUnique()
    ensures UniqueIds(InitialTools)
  {
    var t := InitialTools;
    assert t[0].id[0] == 'w' && t[1].id[0] == 'c' && t[2].id[0] == 'i' && t[3].id[0] == 'f' && t[4].id[0] == 'c';
    assert t[1].id[1] == 'o' && t[4].id[1] == 'a';
  }

  /** Two of the initial tools start enabled. */
  lemma InitialEnabledCount()
    ensures EnabledToolsCount(InitialTools) == 2
  {
    var t := InitialTools;
    assert t[4..][1..] == [];
    assert EnabledTools(t[4..]) == [];
    assert t[3..][1..] == t[4..];
    assert EnabledTools(t[3..]) == [t[3]];
    assert t[2..][1..] == t[3..];
    assert EnabledTools(t[2..]) == [t[3]];
    assert t[1..][1..] == t[2..];
    assert EnabledTools(t[1..]) == [t[3]];
    assert EnabledTools(t) == [t[0], t[3]];
  }
}

=== FILE: validation.dfy ===
/**
 * The input validators of `utils/validation`: each regular expression is
 * written out as a predicate over the characters of the string.
 */
module Validation {

  import opened Wrappers
  import opened Text

  /** The class `[a-zA-Z0-9_-]`. */
  predicate IsSessionIdChar(c: char) {
    ('a' <= c <= 'z') || ('A' <= c <= 'Z') || ('0' <= c <= '9') || c == '_' || c == '-'
  }

  /** `^[a-zA-Z0-9_-]*$`, matched one character at a time. */
  function AllSessionIdChars(s: string): (r: bool)
    ensures r <==> forall k | 0 <= k < |s| :: IsSessionIdChar(s[k])
  {
    |s| == 0 || (IsSessionIdChar(s[0]) && AllSessionIdChars(s[1..]))
  }

  /** `isValidSessionId`: non-empty, and every character is a letter, a digit, `_` or `-`. */
  function IsValidSessionId(s: string): (r: bool)
    ensures r <==> |s| > 0 && forall k | 0 <= k < |s| :: IsSessionIdChar(s[k])
    ensures s == "" ==> !r
  {
    |s| > 0 && AllSessionIdChars(s)
  }

  /** The class `[^\s@]`. */
  predicate IsEmailChar(c: char) {
    !IsWhitespace(c) && c != '@'
  }

  /** `[^\s@]+` matches the whole of `p`. */
  predicate IsEmailPart(p: string) {
    |p| > 0 && forall k | 0 <= k < |p| :: IsEmailChar(p[k])
  }

  /** `[^\s@]+\.[^\s@]+` matches the whole of `d`: a dot that is neither first nor last. */
  predicate IsDomain(d: string) {
    && AllEmailChars(d)
    && |d| >= 3 && '.' in d[1..|d| - 1]
  }

  /**
   * The matcher behind `isValidEmail`: since the local part cannot contain
   * `@`, the only way to match is to split at the first `@`.
   */
  predicate FirstAtMatch(s: string) {
    '@' in s && 0 < IndexOf(s, '@') && IsEmailPart(s[..IndexOf(s, '@')]) && IsDomain(s[IndexOf(s, '@') + 1..])
  }

  /** `isValidEmail`: true exactly when the regular expression matches the whole string. */
  function IsValidEmail(s: string): (r: bool)
    ensures r <==> MatchesEmailRegex(s)
  {
    EmailMatcherIsRegex(s);
    FirstAtMatch(s)
  }

  /** `^[^\s@]+@[^\s@]+\.[^\s@]+$`, read as a regular expression: some choice of `@` and `.` positions. */
  ghost predicate MatchesEmailRegex(s: string) {
    exists i, j | 0 < i && i + 1 < j && j + 1 < |s| ::
      && s[i] == '@' && s[j] == '.'
      && IsEmailPart(s[..i]) && IsEmailPart(s[i + 1..j]) && IsEmailPart(s[j + 1..])
  }

  predicate AllEmailChars(p: string) {
    forall k | 0 <= k < |p| :: IsEmailChar(p[k])
  }

  lemma SlicePart(p: string, a: nat, b: nat)
    requires AllEmailChars(p) && a < b <= |p|
    ensures IsEmailPart(p[a..b])
  {
    assert forall k | 0 <= k < b - a :: p[a..b][k] == p[a + k];
  }

  lemma JoinChars(p: string, q: string)
    requires AllEmailChars(p) && AllEmailChars(q)
    ensures AllEmailChars(p + q)
  {
    assert forall k | 0 <= k < |p + q| :: (p + q)[k] == if k < |p| then p[k] else q[k - |p|];
  }

  lemma {:induction false} EmailMatcherSound(s: string)
    requires FirstAtMatch(s)
    ensures MatchesEmailRegex(s)
  {
    var i := IndexOf(s, '@');
    var d := s[i + 1..];
    var p := InnerDot(d);
    var j := i + 1 + p;
    assert s[j] == '.';
    SlicePart(d, 0, p);
    SlicePart(d, p + 1, |d|);
    assert s[i + 1..j] == d[0..p];
    assert s[j + 1..] == d[p + 1..|d|];
  }

  lemma {:induction false} EmailMatcherComplete(s: string, i: nat, j: nat)
    requires 0 < i && i + 1 < j && j + 1 < |s|
    requires s[i] == '@' && s[j] == '.'
    requires IsEmailPart(s[..i]) && IsEmailPart(s[i + 1..j]) && IsEmailPart(s[j + 1..])
    ensures FirstAtMatch(s)
  {
    assert '@' !in s[..i];
    assert IndexOf(s, '@') == i;
    var d := s[i + 1..];
    assert d == s[i + 1..j] + ['.'] + s[j + 1..];
    assert AllEmailChars(['.']);
    JoinChars(s[i + 1..j], ['.']);
    JoinChars(s[i + 1..j] + ['.'], s[j + 1..]);
    assert d[1..|d| - 1][j - i - 2] == '.';
  }

  /** The first-`@` matcher accepts exactly what the regular expression accepts. */
  lemma EmailMatcherIsRegex(s: string)
    ensures FirstAtMatch(s) <==> MatchesEmailRegex(s)
  {
    if FirstAtMatch(s) {
      EmailMatcherSound(s);
    }
    if MatchesEmailRegex(s) {
      var i, j :| 0 < i && i + 1 < j && j + 1 < |s|
        && s[i] == '@' && s[j] == '.'
        && IsEmailPart(s[..i]) && IsEmailPart(s[i + 1..j]) && IsEmailPart(s[j + 1..]);
      EmailMatcherComplete(s, i, j);
    }
  }

  /** Outside the first `@`, every character of a valid address is in `[^\s@]`. */
  lemma ValidEmailChars(s: string)
    requires IsValidEmail(s)
    ensures forall k | 0 <= k < |s| && k != IndexOf(s, '@') :: IsEmailChar(s[k])
  {
    var i := IndexOf(s, '@');
    var d := s[i + 1..];
    assert AllEmailChars(s[..i]) && AllEmailChars(d);
    forall k | 0 <= k < |s| && k != i ensures IsEmailChar(s[k]) {
      if k < i {
        assert s[k] == s[..i][k];
      } else {
        assert s[k] == d[k - i - 1];
      }
    }
  }

  /**
   * What a valid address looks like: exactly one `@`, no whitespace, a
   * non-empty local part, and a dot in the domain that is neither its first
   * nor its last character.
   */
  lemma ValidEmailShape(s: string)
    requires IsValidEmail(s)
    ensures 0 < IndexOf(s, '@')
    ensures forall k | 0 <= k < |s| :: s[k] == '@' ==> k == IndexOf(s, '@')
    ensures forall k | 0 <= k < |s| :: !IsWhitespace(s[k])
    ensures exists j | IndexOf(s, '@') + 1 < j < |s| - 1 :: s[j] == '.'
  {
    ValidEmailChars(s);
    DomainDot(s);
  }

  lemma DomainDot(s: string)
    requires IsValidEmail(s)
    ensures exists j | IndexOf(s, '@') + 1 < j < |s| - 1 :: s[j] == '.'
  {
    var i := IndexOf(s, '@');
    var d := s[i + 1..];
    var p := InnerDot(d);
    assert s[i + 1 + p] == d[p];
  }

  /** A position of the dot that `IsDomain` requires. */
  function InnerDot(d: string): (p: nat)
    requires IsDomain(d)
    ensures 0 < p < |d| - 1 && d[p] == '.'
  {
    var m := d[1..|d| - 1];
    1 + IndexOf(m, '.')
  }

  /** `isNotEmpty`: present, and not only whitespace. */
  function IsNotEmpty(v: Option<string>): (r: bool)
    ensures r <==> v.Some? && exists k | 0 <= k < |v.value| :: !IsWhitespace(v.value[k])
  {
    v.Some? && Trim(v.value) != ""
  }
}

=== FILE: wrappers.dfy ===
/** Optional values: the model's stand-in for JavaScript's `null` / `undefined`. */
module Wrappers {

  datatype Option<+T> = None | Some(value: T)
}
